=== FILE: README.md ===
# Houdini Engine for Unreal: the preset value model

This project models the parameter presets of a Houdini Digital Asset (HDA) as
declared in `Source/HoudiniEngineEditor/Private/HoudiniPreset.h`. A preset is a
named snapshot of an HDA's parameter values and input bindings. It can be
applied again later.

- **Payloads** (`preset_values.dfy`, module `PresetValues`). `Payload` is a
  tagged union with one constructor per struct that derives from
  `FHoudiniPresetBase`:
  - the base itself;
  - float, int and string values;
  - float-ramp and colour-ramp points;
  - the input-object record;
  - the input-binding record.

  Every payload answers two observers. `GetValueType` is the coarse and lossy
  `EHoudiniPresetValueType`. `ToString` is the human-readable rendering.
- **FString helpers** (`fstrings.dfy`, module `FStrings`). These are the parts
  of Unreal's `FString` that the renderings use:
  - `Join`: the list joined with a separator;
  - `DecimalString`: `FromInt`, which never writes a leading zero.

  Each has a partner that reads the text back. `Split` cuts only where the
  whole separator occurs. `ParseDecimal` accepts exactly the texts `FromInt`
  writes.
- **Container** (`houdini_preset.dfy`, module `HoudiniPreset`). `UHoudiniPreset`
  is modelled as a record with:
  - its metadata;
  - five maps from parameter name to payload (`TMap<FString, ...>`);
  - the ordered list of input records, which may repeat a name.

  An `FString` key is compared and hashed ignoring letter case, so `"tx"` and
  `"TX"` are one key of a `TMap`. Each map is therefore indexed by the
  case-folded name, and each entry keeps the name as last written.

  The bodies of the ingest helpers are not in this header. Their signatures
  (lines 253-273) show only an out-parameter `TMap` or `TArray` and a `bool` or
  `void` result. The model assumes what those signatures suggest:
  - capturing a parameter always stores its payload in the map of its shape,
    with `TMap::Add` under the parameter name, replacing any entry whose name
    matches ignoring case;
  - capturing an input appends a record with `TArray::Add`.

Host types stay abstract:
- `Obj`, `Xform` and `Asset` stand for `TSoftObjectPtr<UObject>`, `FTransform`
  and `UHoudiniAsset*`.
- A float is its 32-bit pattern.
- `FString::SanitizeFloat` is the function parameter `sanitize`.
- `EHoudiniInputType` and `EHoudiniRampInterpolationType` are declared outside
  this file. They are kept as ordinals.

`FHoudiniPresetInputObject` also derives from `FHoudiniPresetBase` and overrides
neither observer. It is therefore a payload of its own: it reports `Invalid`
and renders as `""`.

Two renderings do not do what the code evidently means (see Findings). In each
case `PresetValues.ToStringAsWritten` models the code as written and
`PresetValues.ToString` models the intended rendering. The lemmas relate the two.

## Model

| member | source | states |
|---|---|---|
| `FStrings.Join` | Source/HoudiniEngineEditor/Private/HoudiniPreset.h:111 | Joining gives these results: no elements give `""`, one element gives that element unchanged, and n >= 1 elements give a text whose length is the elements' total plus n - 1 separators, starting with the first element |
| `FStrings.JoinSnoc` | Source/HoudiniEngineEditor/Private/HoudiniPreset.h:111 | Each element after the first follows the join of the elements before it, after one separator. With `Join`'s first-element clause this fixes the text and the list order |
| `FStrings.JoinCount` | Source/HoudiniEngineEditor/Private/HoudiniPreset.h:111 | In a join of n >= 1 strings, every occurrence of a character comes from an element or from exactly n - 1 separators |
| `FStrings.SplitJoin` | Source/HoudiniEngineEditor/Private/HoudiniPreset.h:83-111 | Splitting a join at every whole occurrence of the separator gives back the list, when no element holds the separator's first character |
| `FStrings.DecimalString` | Source/HoudiniEngineEditor/Private/HoudiniPreset.h:97 | `FromInt` text is canonical: digits with no leading zero, preceded by `-` exactly for negative numbers. It holds no comma |
| `FStrings.DecimalRoundTrip` | Source/HoudiniEngineEditor/Private/HoudiniPreset.h:97 | `FromInt` text reads back as the same integer |
| `FStrings.DecimalParseIff` | Source/HoudiniEngineEditor/Private/HoudiniPreset.h:97 | A text reads back as `n` if and only if it is the `FromInt` text of `n`: reading back is the exact inverse of `FromInt` |
| `PresetValues.GetValueType` | Source/HoudiniEngineEditor/Private/HoudiniPreset.h:70-193 | The base and the input object report Invalid, float values report Float, and int values report Int. String values, both ramps and the input binding all report String, so the coarse kind names a shape only for Float and Int |
| `PresetValues.RoundToFloat32` | Source/HoudiniEngineEditor/Private/HoudiniPreset.h:97 | Binding an int to `const float&` gives a float: its magnitude is one of the two multiples of the float spacing (24-bit significand) that bracket the int's magnitude. The sign is kept, and the result is at most half a spacing away |
| `PresetValues.RoundToFloat32Exact` | Source/HoudiniEngineEditor/Private/HoudiniPreset.h:97 | Ints of magnitude up to 2^24 survive the conversion to float unchanged |
| `PresetValues.ToStringAsWritten` | Source/HoudiniEngineEditor/Private/HoudiniPreset.h:70-193 | The rendering of every payload as the code writes it. Its properties are stated by `IntRenderingAsWritten`, `RampRenderingAsWrittenIgnoresCount` and `EmptyRenderings`. Through `IntendedDiffersOnlyForIntsAndRamps`, `FloatRendering` and `StringRendering` hold of it too |
| `PresetValues.ToString` | Source/HoudiniEngineEditor/Private/HoudiniPreset.h:97-167 | The rendering the code evidently intends: exact ints and ramp point counts, all other shapes as written. Its properties are stated by `IntRendering`, `IntRenderingInjective`, `RampRendering` and `RampRenderingDependsOnlyOnCount` |
| `PresetValues.IntendedDiffersOnlyForIntsAndRamps` | Source/HoudiniEngineEditor/Private/HoudiniPreset.h:70-193 | Every shape other than ints and ramps renders the same as written and as intended |
| `PresetValues.StringRendering` | Source/HoudiniEngineEditor/Private/HoudiniPreset.h:111 | String values render joined by `", "` in list order. An empty list gives `""`, one value gives itself, and each further value follows the rendering of those before it after `", "`. n >= 1 values give exactly n - 1 extra commas and a length of the total plus 2(n - 1). When no value holds a comma, splitting at `", "` gives the values back |
| `PresetValues.StringRenderingIsAmbiguous` | Source/HoudiniEngineEditor/Private/HoudiniPreset.h:111 | `["a, b"]` and `["a", "b"]` render alike: the string rendering cannot be read back |
| `PresetValues.FloatRendering` | Source/HoudiniEngineEditor/Private/HoudiniPreset.h:83 | Float values render as one `SanitizeFloat` text per value, in order, joined by `", "`. An empty list gives `""`. When those texts hold no comma, splitting recovers them |
| `PresetValues.IntRendering` | Source/HoudiniEngineEditor/Private/HoudiniPreset.h:97 | The intended int rendering is empty exactly when there are no values. Otherwise it splits at `", "` into one exact decimal text per value, in list order, and holds exactly n - 1 commas |
| `PresetValues.IntRenderingAsWritten` | Source/HoudiniEngineEditor/Private/HoudiniPreset.h:97 | The int rendering as written is empty exactly when there are no values. Otherwise it splits at `", "` into the decimal text of each value after its rounding to float, in list order |
| `PresetValues.IntRenderingInjective` | Source/HoudiniEngineEditor/Private/HoudiniPreset.h:97 | Under the intended rendering, equal int renderings come from equal value lists |
| `PresetValues.IntRenderingThroughFloatExact` | Source/HoudiniEngineEditor/Private/HoudiniPreset.h:97 | Within ±2^24 the rendering as written (through a float) equals the intended one |
| `PresetValues.IntRenderingThroughFloatCollides` | Source/HoudiniEngineEditor/Private/HoudiniPreset.h:97 | As written, `[16777216]` and `[16777217]` render alike. The intended rendering tells them apart |
| `PresetValues.RampRendering` | Source/HoudiniEngineEditor/Private/HoudiniPreset.h:154-167 | The intended ramp rendering is the point count followed by `" float points."` or `" color points."`, and the count reads back from the text |
| `PresetValues.RampRenderingDependsOnlyOnCount` | Source/HoudiniEngineEditor/Private/HoudiniPreset.h:154-167 | Two ramps of the same kind render alike exactly when they have the same number of points. Positions, values and interpolations never show |
| `PresetValues.RampRenderingAsWrittenIgnoresCount` | Source/HoudiniEngineEditor/Private/HoudiniPreset.h:154-167 | As written, a ramp renders as the literal `"%d float points."` / `"%d color points."` whatever its points, and this always differs from the intended rendering |
| `PresetValues.EmptyRenderings` | Source/HoudiniEngineEditor/Private/HoudiniPreset.h:174-193 | The base payload, an input object and an input binding render as `""` whatever their fields hold (the base's rendering is at line 70) |
| `HoudiniPreset.Put` | Source/HoudiniEngineEditor/Private/HoudiniPreset.h:335-348 | A `TMap::Add` under an `FString` key. Afterwards the name, in any letter case, finds the new value, and the entry keeps the name as now written. Every other entry, stored key included, is kept as it was. The map grows only when no key matched the name ignoring case, and it stays well keyed |
| `HoudiniPreset.KeysUnique` | Source/HoudiniEngineEditor/Private/HoudiniPreset.h:335-348 | A well-keyed map holds at most one pair per name: no two of its keys match ignoring case |
| `HoudiniPreset.CaseOnlyNamesShareAnEntry` | Source/HoudiniEngineEditor/Private/HoudiniPreset.h:335-348 | Writing `"tx"` and then `"TX"` leaves one entry, holding the later value, which `"tx"` and `"Tx"` both find |
| `HoudiniPreset.IngestParameter` | Source/HoudiniEngineEditor/Private/HoudiniPreset.h:253-268 | Capturing a parameter leaves the inputs and the metadata unchanged and keeps every map well keyed |
| `HoudiniPreset.IngestParameterStores` | Source/HoudiniEngineEditor/Private/HoudiniPreset.h:253-268 | Capturing a parameter touches only the map of the payload's shape. That map gains an entry only when no key matched the name ignoring case. The other maps are unchanged |
| `HoudiniPreset.GetAfterIngest` | Source/HoudiniEngineEditor/Private/HoudiniPreset.h:253-268 | After capture, the payload reads back from the map of its shape under its name in any letter case. Every other read in every map is unchanged |
| `HoudiniPreset.KeyAfterIngest` | Source/HoudiniEngineEditor/Private/HoudiniPreset.h:253-268 | After capture, the pair the parameter's name matches (ignoring case) in the map of its shape keeps the name as written by this capture. Every other pair, in every map, keeps its stored key, which is what a walk over the map sees |
| `HoudiniPreset.IngestOverwrites` | Source/HoudiniEngineEditor/Private/HoudiniPreset.h:253-268 | Capturing into one map twice, under names that differ at most in letter case, leaves exactly the preset that the second capture alone leaves |
| `HoudiniPreset.StoredValueType` | Source/HoudiniEngineEditor/Private/HoudiniPreset.h:335-348 | A payload read from a map has that map's shape. The float map yields Float, the int map yields Int, and the string map and both ramp maps all yield String |
| `HoudiniPreset.IngestGenericInput` | Source/HoudiniEngineEditor/Private/HoudiniPreset.h:273 | Input capture appends one record after all existing ones. The record is the captured one (nine export options, type, index and objects) with the given parameter-input flag and name. Everything except the input list is unchanged: the maps with their stored keys, and the metadata |
| `HoudiniPreset.CountBoundToAppend` | Source/HoudiniEngineEditor/Private/HoudiniPreset.h:350-352 | Appending a record adds one to the count of records bound to its name and leaves the other names' counts unchanged |
| `HoudiniPreset.InputCaptureKeepsDuplicates` | Source/HoudiniEngineEditor/Private/HoudiniPreset.h:273 | Input capture never deduplicates: capturing another parameter input under a name already recorded adds one more record bound to that name |

## Findings

| source | as written | input that shows it | evidently intended | confidence | as-written member | corrected member |
|---|---|---|---|---|---|---|
| Source/HoudiniEngineEditor/Private/HoudiniPreset.h:154 | The float-ramp rendering passes a printf-style `%d` pattern to `FString::Format`, which only replaces `{0}`-style placeholders. The text is therefore always `"%d float points."` | a float ramp with 3 points | `"3 float points."` | high; not executed | `PresetValues.RampRenderingAsWrittenIgnoresCount` | `PresetValues.RampRendering` |
| Source/HoudiniEngineEditor/Private/HoudiniPreset.h:167 | Same pattern for colour ramps: always `"%d color points."` | a colour ramp with 2 points | `"2 color points."` | high; not executed | `PresetValues.RampRenderingAsWrittenIgnoresCount` | `PresetValues.RampRendering` |
| Source/HoudiniEngineEditor/Private/HoudiniPreset.h:97 | The int rendering's projection takes its argument as a float, so each int is rounded to single precision (nearest, ties to even) before `FromInt` | int values `[16777217]` render `"16777216"` | `"16777217"`, the exact decimal text | high; not executed | `PresetValues.IntRenderingThroughFloatCollides` | `PresetValues.IntRenderingInjective` |

## Left out

- `ApplyPresetParameterValues` (all eleven overloads, at lines 280, 281, 282, 285, 286, 289, 290, 291, 294, 295 and 298): the bodies are not part of this model, and they act on host parameter and input objects. Each takes its payload by `const` reference. Payloads here are immutable values, so nothing an apply step could do changes a stored payload, and no lemma is needed to say so.
- `IsSupportedInputType`, `PopulateFromParameter` and `UpdateFromInput` (lines 245-250, 274): the bodies are not part of this model.
- HoudiniPreset.IngestParameter: the body is not in this header. The value read from the host parameter is a parameter of the model, and a capture always stores it. A capture that returns `false` and stores nothing is not modelled, nor is the `OutValueStr` text, because the rules for both are not in this header.
- HoudiniPreset.IngestGenericInput: the export options, type, index and objects are read from the host input by code that is not part of this model. The captured record is a parameter, and the append is assumed.
- HoudiniPreset.Fold: only the ASCII letters `A`-`Z` fold. Case mappings of other characters, which `FString` comparison may also apply depending on the platform, are not modelled.
- PresetValues.RoundToFloat32: the contract states that the result is one of the two bracketing floats, at most half a spacing away. It does not state which of the two a tie picks; the body picks the even significand. The conversion of the rounded float back to `int32` is not modelled. For the few values that round up to 2^31, C++ leaves that conversion undefined, and the model renders 2147483648.
- `FString::SanitizeFloat`: floating-point formatting, kept as the parameter `sanitize`.
- The `UHoudiniPreset` constructor: its defaults for the metadata fields are not in this header.
- Unreal reflection and serialization (`UPROPERTY`, `GENERATED_BODY`), which are engine plumbing.

=== FILE: fstrings.dfy ===
/**
 * The parts of Unreal's FString that the preset renderings use: FString::Join
 * (elements in order with a separator between neighbours) and FString::FromInt
 * (decimal text of an integer), each with a partner that reads the text back
 * (Split and ParseDecimal) so that what a rendering keeps can be stated.
 */
module FStrings {
  import opened Wrappers

  /** Sum of the lengths of the strings in `xs`. */
  function TotalLength(xs: seq<string>): nat
  {
    if |xs| == 0 then 0 else |xs[0]| + TotalLength(xs[1..])
  }

  /** Number of occurrences of `c` in `s`. */
  function CountChar(c: char, s: string): nat
  {
    if |s| == 0 then 0 else (if s[0] == c then 1 else 0) + CountChar(c, s[1..])
  }

  /** Number of occurrences of `c` over all the strings in `xs`. */
  function TotalCount(c: char, xs: seq<string>): nat
  {
    if |xs| == 0 then 0 else CountChar(c, xs[0]) + TotalCount(c, xs[1..])
  }

  /**
   * FString::Join: the elements in list order, `sep` between each two
   * neighbours; no leading or trailing separator. JoinSnoc states the order
   * of the elements after the first.
   */
  function Join(xs: seq<string>, sep: string): (r: string)
    ensures |xs| == 0 ==> r == ""
    ensures |xs| == 1 ==> r == xs[0]
    ensures |xs| >= 1 ==> |r| == TotalLength(xs) + |sep| * (|xs| - 1)
    ensures |xs| >= 1 ==> r[..|xs[0]|] == xs[0]
  {
    if |xs| == 0 then ""
    else if |xs| == 1 then xs[0]
    else
      var rest := Join(xs[1..], sep);
      assert |sep| + |sep| * (|xs| - 2) == |sep| * (|xs| - 1);
      xs[0] + sep + rest
  }

  /**
   * Join keeps list order: each element after the first follows the join of
   * the elements before it, after one separator. With Join's clause on the
   * first element this fixes the whole text.
   */
  lemma {:induction false} JoinSnoc(xs: seq<string>, sep: string)
    requires |xs| >= 2
    ensures Join(xs, sep) == Join(xs[..|xs| - 1], sep) + sep + xs[|xs| - 1]
  {
    var front := xs[..|xs| - 1];
    if |xs| == 2 {
      assert front == [xs[0]];
      assert xs[1..] == [xs[1]];
    } else {
      JoinSnoc(xs[1..], sep);
      assert front[1..] == xs[1..][..|xs| - 2];
      assert xs[1..][|xs| - 2] == xs[|xs| - 1];
    }
  }

  lemma {:induction false} CountCharConcat(c: char, a: string, b: string)
    ensures CountChar(c, a + b) == CountChar(c, a) + CountChar(c, b)
  {
    if |a| == 0 {
      assert a + b == b;
    } else {
      assert (a + b)[1..] == a[1..] + b;
      CountCharConcat(c, a[1..], b);
    }
  }

  lemma {:induction false} CountCharAbsent(c: char, s: string)
    requires c !in s
    ensures CountChar(c, s) == 0
  {
    if |s| > 0 {
      assert s[0] != c;
      assert forall k :: 0 <= k < |s[1..]| ==> s[1..][k] == s[k + 1];
      CountCharAbsent(c, s[1..]);
    }
  }

  lemma {:induction false} TotalCountAbsent(c: char, xs: seq<string>)
    requires forall k :: 0 <= k < |xs| ==> c !in xs[k]
    ensures TotalCount(c, xs) == 0
  {
    if |xs| > 0 {
      CountCharAbsent(c, xs[0]);
      assert forall k :: 0 <= k < |xs[1..]| ==> xs[1..][k] == xs[k + 1];
      TotalCountAbsent(c, xs[1..]);
    }
  }

  /**
   * A join of n >= 1 strings holds the characters of its elements plus
   * exactly n - 1 copies of the separator: every occurrence of `c` comes from
   * an element or from one of the n - 1 separators.
   */
  lemma {:induction false} JoinCount(c: char, xs: seq<string>, sep: string)
    requires |xs| >= 1
    ensures CountChar(c, Join(xs, sep)) == TotalCount(c, xs) + CountChar(c, sep) * (|xs| - 1)
  {
    if |xs| == 1 {
      assert xs[1..] == [];
    } else {
      JoinCount(c, xs[1..], sep);
      CountCharConcat(c, xs[0] + sep, Join(xs[1..], sep));
      CountCharConcat(c, xs[0], sep);
      assert CountChar(c, sep) + CountChar(c, sep) * (|xs| - 2) == CountChar(c, sep) * (|xs| - 1);
    }
  }

  /** `sep` occurs in `s` starting at index `j`. */
  predicate SepAt(s: string, sep: string, j: nat)
  {
    j + |sep| <= |s| && s[j..j + |sep|] == sep
  }

  lemma SepAtShift(s: string, sep: string, j: nat)
    requires |s| >= 1
    ensures SepAt(s[1..], sep, j) == SepAt(s, sep, j + 1)
  {
    if j + |sep| <= |s| - 1 {
      assert s[1..][j..j + |sep|] == s[j + 1..j + 1 + |sep|];
    }
  }

  /** No occurrence of `sep` starts inside `a` when `a` lacks its first character. */
  lemma NoSepIn(s: string, a: string, sep: string)
    requires |sep| >= 1 && sep[0] !in a && |a| <= |s| && s[..|a|] == a
    ensures forall j :: 0 <= j < |a| ==> !SepAt(s, sep, j)
  {
    forall j | 0 <= j < |a|
      ensures !SepAt(s, sep, j)
    {
      assert s[j] == a[j];
      if j + |sep| <= |s| {
        assert s[j..j + |sep|][0] == s[j];
      }
    }
  }

  /** Index of the first occurrence of `sep` in `s`, or |s| when there is none. */
  function FindSep(s: string, sep: string): (i: nat)
    requires |sep| >= 1
    ensures i <= |s|
    ensures i < |s| ==> SepAt(s, sep, i)
    ensures forall j :: 0 <= j < i ==> !SepAt(s, sep, j)
    decreases |s|
  {
    if |s| < |sep| then |s|
    else if SepAt(s, sep, 0) then 0
    else
      var i := FindSep(s[1..], sep);
      assert forall j :: 0 <= j < 1 + i ==> !SepAt(s, sep, j) by {
        forall j | 0 <= j < 1 + i
          ensures !SepAt(s, sep, j)
        {
          if j > 0 {
            SepAtShift(s, sep, j - 1);
          }
        }
      }
      SepAtShift(s, sep, i);
      1 + i
  }

  /**
   * Cuts `s` at every occurrence of `sep`, dropping the separators: the
   * reading-back partner of Join.
   */
  function Split(s: string, sep: string): (r: seq<string>)
    requires |sep| >= 1
    ensures |r| >= 1
    decreases |s|
  {
    var i := FindSep(s, sep);
    if i == |s| then [s]
    else [s[..i]] + Split(s[i + |sep|..], sep)
  }

  lemma SepAtAppend(a: string, b: string, sep: string)
    requires SepAt(b, sep, 0)
    ensures SepAt(a + b, sep, |a|)
  {
    assert (a + b)[|a|..|a| + |sep|] == b[0..|sep|];
  }

  /** In `a + b`, a separator whose first character is absent from `a` is first found where `b` begins with it. */
  lemma FindSepPast(a: string, b: string, sep: string)
    requires |sep| >= 1 && sep[0] !in a && SepAt(b, sep, 0)
    ensures FindSep(a + b, sep) == |a|
  {
    var s := a + b;
    SepAtAppend(a, b, sep);
    assert s[..|a|] == a;
    NoSepIn(s, a, sep);
  }

  /** Splitting `x + sep + rest` cuts off `x` first when `x` lacks the separator's first character. */
  lemma SplitStep(x: string, sep: string, rest: string)
    requires |sep| >= 1 && sep[0] !in x
    ensures Split(x + sep + rest, sep) == [x] + Split(rest, sep)
  {
    var s := x + (sep + rest);
    assert x + sep + rest == s;
    assert (sep + rest)[0..|sep|] == sep;
    FindSepPast(x, sep + rest, sep);
    assert s[..|x|] == x;
    assert s[|x| + |sep|..] == rest;
  }

  /**
   * Joining and splitting again gives back the list, provided no element holds
   * the separator's first character.
   */
  lemma {:induction false} SplitJoin(xs: seq<string>, sep: string)
    requires |sep| >= 1 && |xs| >= 1
    requires forall k :: 0 <= k < |xs| ==> sep[0] !in xs[k]
    ensures Split(Join(xs, sep), sep) == xs
  {
    if |xs| == 1 {
      var s := xs[0];
      assert sep[0] !in s;
      NoSepIn(s, s, sep);
    } else {
      var rest := Join(xs[1..], sep);
      assert Join(xs, sep) == xs[0] + sep + rest;
      assert sep[0] !in xs[0];
      SplitStep(xs[0], sep, rest);
      assert forall k :: 0 <= k < |xs[1..]| ==> xs[1..][k] == xs[k + 1];
      SplitJoin(xs[1..], sep);
      assert [xs[0]] + xs[1..] == xs;
    }
  }

  predicate AllDigits(s: string)
  {
    forall k :: 0 <= k < |s| ==> '0' <= s[k] <= '9'
  }

  function DigitChar(d: nat): (ch: char)
    requires d < 10
    ensures '0' <= ch <= '9'
  {
    (48 + d) as char
  }

  /** Decimal digits without a leading zero, as FString::FromInt writes a magnitude. */
  predicate NoLeadingZero(d: string)
  {
    |d| >= 1 && AllDigits(d) && (d[0] == '0' ==> |d| == 1)
  }

  /** The only texts FString::FromInt writes: a magnitude, or '-' and a non-zero magnitude. */
  predicate CanonicalDecimal(s: string)
  {
    NoLeadingZero(s) || (|s| >= 2 && s[0] == '-' && NoLeadingZero(s[1..]) && s[1] != '0')
  }

  /** The decimal digits of `n`, most significant first, without leading zeros. */
  function NatDigits(n: nat): (s: string)
    ensures NoLeadingZero(s)
    ensures s[0] == '0' <==> n == 0
  {
    if n < 10 then [DigitChar(n)] else NatDigits(n / 10) + [DigitChar(n % 10)]
  }

  /** FString::FromInt: a '-' for a negative number, then the digits of its magnitude. */
  function DecimalString(n: int): (s: string)
    ensures CanonicalDecimal(s)
    ensures s[0] == '-' <==> n < 0
    ensures ',' !in s
  {
    var digits := if n < 0 then NatDigits(-n) else NatDigits(n);
    assert forall k :: 0 <= k < |digits| ==> digits[k] != ',' && digits[k] != '-';
    if n < 0 then
      assert ("-" + digits)[1..] == digits;
      "-" + digits
    else digits
  }

  /** The value of a string of decimal digits. */
  function DigitsValue(s: string): nat
    requires AllDigits(s)
  {
    if |s| == 0 then 0 else DigitsValue(s[..|s| - 1]) * 10 + (s[|s| - 1] as int - 48)
  }

  /** Reads back a decimal integer in the form FromInt writes; None for any other text. */
  function ParseDecimal(s: string): Option<int>
  {
    if |s| >= 2 && s[0] == '-' && NoLeadingZero(s[1..]) && s[1] != '0' then Some(-(DigitsValue(s[1..]) as int))
    else if NoLeadingZero(s) then Some(DigitsValue(s))
    else None
  }

  lemma {:induction false} NatDigitsValue(n: nat)
    ensures DigitsValue(NatDigits(n)) == n
  {
    if n >= 10 {
      var s := NatDigits(n);
      assert s[..|s| - 1] == NatDigits(n / 10);
      NatDigitsValue(n / 10);
    }
  }

  /** FromInt loses nothing: its text reads back as the same integer. */
  lemma DecimalRoundTrip(n: int)
    ensures ParseDecimal(DecimalString(n)) == Some(n)
  {
    if n < 0 {
      var d := NatDigits(-n);
      assert DecimalString(n) == "-" + d;
      assert ("-" + d)[1..] == d;
      NatDigitsValue(-n);
    } else {
      var d := NatDigits(n);
      assert DecimalString(n) == d;
      assert '0' <= d[0] <= '9';
      NatDigitsValue(n);
    }
  }

  /** Digits without a leading zero, other than "0" itself, have a positive value. */
  lemma {:induction false} DigitsPositive(d: string)
    requires NoLeadingZero(d) && d[0] != '0'
    ensures DigitsValue(d) >= 1
  {
    if |d| >= 2 {
      var front := d[..|d| - 1];
      assert front[0] == d[0];
      DigitsPositive(front);
    }
  }

  /** Digits without a leading zero are exactly the FromInt digits of their value. */
  lemma {:induction false} DigitsNatDigits(d: string)
    requires NoLeadingZero(d)
    ensures NatDigits(DigitsValue(d)) == d
  {
    var front := d[..|d| - 1];
    var last := d[|d| - 1];
    if |d| == 1 {
      assert DigitsValue(d) == last as int - 48;
      assert [last] == d;
    } else {
      assert front[0] == d[0];
      DigitsPositive(front);
      DigitsNatDigits(front);
      var v := DigitsValue(d);
      assert v / 10 == DigitsValue(front) && v % 10 == last as int - 48;
      assert front + [last] == d;
    }
  }

  /** A text ParseDecimal accepts is the FromInt text of what it reads. */
  lemma ParsedIsDecimalString(s: string)
    requires ParseDecimal(s).Some?
    ensures DecimalString(ParseDecimal(s).value) == s
  {
    if |s| >= 2 && s[0] == '-' && NoLeadingZero(s[1..]) && s[1] != '0' {
      var d := s[1..];
      DigitsPositive(d);
      DigitsNatDigits(d);
      assert DecimalString(-(DigitsValue(d) as int)) == "-" + d;
      assert "-" + d == s;
    } else {
      DigitsNatDigits(s);
    }
  }

  /**
   * ParseDecimal is the exact inverse of FromInt: a text reads as `n` if and
   * only if it is the text FromInt writes for `n`.
   */
  lemma DecimalParseIff(s: string, n: int)
    ensures ParseDecimal(s) == Some(n) <==> s == DecimalString(n)
  {
    DecimalRoundTrip(n);
    if ParseDecimal(s) == Some(n) {
      ParsedIsDecimalString(s);
    }
  }

  /** Distinct integers have distinct FromInt renderings. */
  lemma DecimalInjective(a: int, b: int)
    requires DecimalString(a) == DecimalString(b)
    ensures a == b
  {
    DecimalRoundTrip(a);
    DecimalRoundTrip(b);
  }
}

=== FILE: houdini_preset.dfy ===
/**
 * UHoudiniPreset (HoudiniPreset.h): descriptive metadata, five maps from
 * parameter name to payload (a map holds at most one payload per name), and
 * an ordered list of input bindings in which a name may recur.
 *
 * A TMap keyed by FString compares and hashes its keys ignoring letter
 * case, so names that differ only in case are one key. Capturing a parameter
 * writes into the map of its shape under the parameter's name, replacing
 * what was there under that name in any case; capturing an input appends a
 * record. What a payload holds is read from a host parameter or input, which
 * is not part of this model: the captured payload is a parameter here.
 */
module HoudiniPreset {
  import opened Wrappers
  import opened PresetValues

  /** FString's case-insensitive comparison folds the letters 'A'..'Z' to 'a'..'z'. */
  function FoldChar(c: char): char
  {
    if 'A' <= c <= 'Z' then (c as int + 32) as char else c
  }

  /** The case-folded form of a name: two FStrings are equal as TMap keys exactly when their folds are. */
  function Fold(name: string): (f: string)
  {
    seq(|name|, k requires 0 <= k < |name| => FoldChar(name[k]))
  }

  /** One TMap pair: the key as last written and its value. */
  datatype Entry<V> = Entry(Key: string, Value: V)

  /** A TMap<FString, V>, indexed by the folded key. */
  type NameMap<V> = map<string, Entry<V>>

  /** Every pair is indexed under the fold of its own key. */
  predicate WellKeyed<V>(m: NameMap<V>)
  {
    forall f :: f in m ==> Fold(m[f].Key) == f
  }

  /** A well-keyed map holds at most one pair per name: no two of its keys match ignoring case. */
  lemma KeysUnique<V>(m: NameMap<V>, f: string, g: string)
    requires WellKeyed(m) && f in m && g in m
    requires Fold(m[f].Key) == Fold(m[g].Key)
    ensures f == g
  {
  }

  /** TMap::Find: the value stored under `name`, matched ignoring case. */
  function Find<V>(m: NameMap<V>, name: string): Option<V>
  {
    if Fold(name) in m then Some(m[Fold(name)].Value) else None
  }

  /** Asset stands for UHoudiniAsset*; None is a null pointer. */
  datatype Preset<Obj, Xform, Asset> = Preset(
    Name: string,
    Description: string,
    SourceHoudiniAsset: Option<Asset>,
    RevertHDAParameters: bool,
    ApplyOnlyToSource: bool,
    CanInstantiate: bool,
    FloatParameters: NameMap<PresetFloatValues>,
    IntParameters: NameMap<PresetIntValues>,
    StringParameters: NameMap<PresetStringValues>,
    RampFloatParameters: NameMap<PresetRampFloatValues>,
    RampColorParameters: NameMap<PresetRampColorValues>,
    InputParameters: seq<PresetInputValue<Obj, Xform>>)

  /** Every map of the preset is well keyed. */
  predicate Valid<Obj, Xform, Asset>(p: Preset<Obj, Xform, Asset>)
  {
    && WellKeyed(p.FloatParameters)
    && WellKeyed(p.IntParameters)
    && WellKeyed(p.StringParameters)
    && WellKeyed(p.RampFloatParameters)
    && WellKeyed(p.RampColorParameters)
  }

  /** The five name-keyed maps of a preset. */
  datatype Slot = FloatSlot | IntSlot | StringSlot | RampFloatSlot | RampColorSlot

  /** The map a payload of this shape is kept in; None for shapes no map holds. */
  function SlotOf<Obj, Xform>(v: Payload<Obj, Xform>): Option<Slot>
  {
    match v
    case FloatValues(_) => Some(FloatSlot)
    case IntValues(_) => Some(IntSlot)
    case StringValues(_) => Some(StringSlot)
    case RampFloatValues(_) => Some(RampFloatSlot)
    case RampColorValues(_) => Some(RampColorSlot)
    case _ => None
  }

  /** The shapes a preset keeps in one of its five maps. */
  predicate IsParameterPayload<Obj, Xform>(v: Payload<Obj, Xform>)
  {
    SlotOf(v).Some?
  }

  /** The payload stored under `name`, matched ignoring case, in the given map, if any. */
  function Get<Obj, Xform, Asset>(p: Preset<Obj, Xform, Asset>, s: Slot, name: string): Option<Payload<Obj, Xform>>
  {
    match s
    case FloatSlot => if Find(p.FloatParameters, name).Some? then Some(FloatValues(Find(p.FloatParameters, name).value)) else None
    case IntSlot => if Find(p.IntParameters, name).Some? then Some(IntValues(Find(p.IntParameters, name).value)) else None
    case StringSlot =>
      if Find(p.StringParameters, name).Some? then Some(StringValues(Find(p.StringParameters, name).value)) else None
    case RampFloatSlot =>
      if Find(p.RampFloatParameters, name).Some? then Some(RampFloatValues(Find(p.RampFloatParameters, name).value)) else None
    case RampColorSlot =>
      if Find(p.RampColorParameters, name).Some? then Some(RampColorValues(Find(p.RampColorParameters, name).value)) else None
  }

  /** The key as stored, in the letter case last written, of the pair `name` matches in the given map, if any. */
  function StoredKey<Obj, Xform, Asset>(p: Preset<Obj, Xform, Asset>, s: Slot, name: string): Option<string>
  {
    var f := Fold(name);
    match s
    case FloatSlot => if f in p.FloatParameters then Some(p.FloatParameters[f].Key) else None
    case IntSlot => if f in p.IntParameters then Some(p.IntParameters[f].Key) else None
    case StringSlot => if f in p.StringParameters then Some(p.StringParameters[f].Key) else None
    case RampFloatSlot => if f in p.RampFloatParameters then Some(p.RampFloatParameters[f].Key) else None
    case RampColorSlot => if f in p.RampColorParameters then Some(p.RampColorParameters[f].Key) else None
  }

  /** Number of entries in the given map. */
  function EntryCount<Obj, Xform, Asset>(p: Preset<Obj, Xform, Asset>, s: Slot): nat
  {
    match s
    case FloatSlot => |p.FloatParameters|
    case IntSlot => |p.IntParameters|
    case StringSlot => |p.StringParameters|
    case RampFloatSlot => |p.RampFloatParameters|
    case RampColorSlot => |p.RampColorParameters|
  }

  /** The metadata fields agree. */
  ghost predicate SameMetadata<Obj, Xform, Asset>(p: Preset<Obj, Xform, Asset>, q: Preset<Obj, Xform, Asset>)
  {
    && p.Name == q.Name
    && p.Description == q.Description
    && p.SourceHoudiniAsset == q.SourceHoudiniAsset
    && p.RevertHDAParameters == q.RevertHDAParameters
    && p.ApplyOnlyToSource == q.ApplyOnlyToSource
    && p.CanInstantiate == q.CanInstantiate
  }

  /**
   * TMap::Add under an FString key: afterwards the name, in any letter case,
   * finds the new value, and the pair keeps the name as written now; a name
   * with another fold finds what it found before, and every other pair,
   * stored key included, is kept; the map grows only when no key matched the
   * name, and it stays well keyed.
   */
  function Put<V>(m: NameMap<V>, name: string, v: V): (r: NameMap<V>)
    ensures forall n :: Fold(n) == Fold(name) ==> Find(r, n) == Some(v)
    ensures Fold(name) in r && r[Fold(name)].Key == name
    ensures forall n :: Fold(n) != Fold(name) ==> Find(r, n) == Find(m, n)
    ensures |r| == if Find(m, name).Some? then |m| else |m| + 1
    ensures WellKeyed(m) ==> WellKeyed(r)
    ensures forall f :: f != Fold(name) ==> (f in r <==> f in m) && (f in m ==> r[f] == m[f])
  {
    m[Fold(name) := Entry(name, v)]
  }

  /** Names that differ only in letter case share one entry: the later write replaces the earlier. */
  lemma CaseOnlyNamesShareAnEntry<V>(v: V, w: V)
    ensures var m := Put(Put(map[], "tx", v), "TX", w);
      |m| == 1 && Find(m, "tx") == Some(w) && Find(m, "Tx") == Some(w)
  {
    assert Fold("TX") == Fold("tx") == Fold("Tx") == "tx";
  }

  /**
   * IngestParameter: the payload captured from a parameter is stored under
   * the parameter's name in the map of its shape. Only that map changes, and
   * it stays well keyed.
   */
  function IngestParameter<Obj, Xform, Asset>(p: Preset<Obj, Xform, Asset>, name: string, v: Payload<Obj, Xform>): (q: Preset<Obj, Xform, Asset>)
    requires IsParameterPayload(v)
    ensures q.InputParameters == p.InputParameters && SameMetadata(p, q)
    ensures Valid(p) ==> Valid(q)
  {
    match v
    case FloatValues(f) => p.(FloatParameters := Put(p.FloatParameters, name, f))
    case IntValues(i) => p.(IntParameters := Put(p.IntParameters, name, i))
    case StringValues(s) => p.(StringParameters := Put(p.StringParameters, name, s))
    case RampFloatValues(rf) => p.(RampFloatParameters := Put(p.RampFloatParameters, name, rf))
    case RampColorValues(rc) => p.(RampColorParameters := Put(p.RampColorParameters, name, rc))
  }

  /**
   * After IngestParameter the payload reads back under the parameter's name
   * from the map of its shape, which gains an entry only if no key matched
   * the name, ignoring case. The other four maps, the inputs and the metadata
   * are unchanged.
   */
  lemma IngestParameterStores<Obj, Xform, Asset>(p: Preset<Obj, Xform, Asset>, name: string, v: Payload<Obj, Xform>)
    requires IsParameterPayload(v)
    ensures var q, slot := IngestParameter(p, name, v), SlotOf(v).value;
      && Get(q, slot, name) == Some(v)
      && EntryCount(q, slot) == (if Get(p, slot, name).Some? then EntryCount(p, slot) else EntryCount(p, slot) + 1)
      && (v.FloatValues? || q.FloatParameters == p.FloatParameters)
      && (v.IntValues? || q.IntParameters == p.IntParameters)
      && (v.StringValues? || q.StringParameters == p.StringParameters)
      && (v.RampFloatValues? || q.RampFloatParameters == p.RampFloatParameters)
      && (v.RampColorValues? || q.RampColorParameters == p.RampColorParameters)
  {
  }

  /**
   * Get after IngestParameter: reading back from the same map under the name,
   * in any letter case, gives the captured payload, and every other read, in
   * any map, is as before.
   */
  lemma GetAfterIngest<Obj, Xform, Asset>(p: Preset<Obj, Xform, Asset>, name: string, v: Payload<Obj, Xform>, s: Slot, n: string)
    requires IsParameterPayload(v)
    ensures Get(IngestParameter(p, name, v), s, n) ==
            if s == SlotOf(v).value && Fold(n) == Fold(name) then Some(v) else Get(p, s, n)
  {
  }

  /**
   * The keys after IngestParameter, as a walk over the maps sees them: the
   * captured pair keeps the parameter's name as written now, and every other
   * pair, in any map, keeps its stored key.
   */
  lemma KeyAfterIngest<Obj, Xform, Asset>(p: Preset<Obj, Xform, Asset>, name: string, v: Payload<Obj, Xform>, s: Slot, n: string)
    requires IsParameterPayload(v)
    ensures StoredKey(IngestParameter(p, name, v), s, n) ==
            if s == SlotOf(v).value && Fold(n) == Fold(name) then Some(name) else StoredKey(p, s, n)
  {
  }

  /** Two writes under names with one fold leave what the second write alone leaves. */
  lemma PutTwice<V>(m: NameMap<V>, first: string, second: string, x: V, y: V)
    requires Fold(first) == Fold(second)
    ensures Put(Put(m, first, x), second, y) == Put(m, second, y)
  {
  }

  /**
   * Capturing a parameter twice, under names that differ at most in letter
   * case, leaves exactly the preset that the second capture alone leaves.
   */
  lemma IngestOverwrites<Obj, Xform, Asset>(p: Preset<Obj, Xform, Asset>, first: string, second: string, a: Payload<Obj, Xform>, b: Payload<Obj, Xform>)
    requires IsParameterPayload(a) && IsParameterPayload(b) && SlotOf(a) == SlotOf(b)
    requires Fold(first) == Fold(second)
    ensures IngestParameter(IngestParameter(p, first, a), second, b) == IngestParameter(p, second, b)
  {
    match a
    case FloatValues(x) => PutTwice(p.FloatParameters, first, second, x, b.floats);
    case IntValues(x) => PutTwice(p.IntParameters, first, second, x, b.ints);
    case StringValues(x) => PutTwice(p.StringParameters, first, second, x, b.strings);
    case RampFloatValues(x) => PutTwice(p.RampFloatParameters, first, second, x, b.rampFloat);
    case RampColorValues(x) => PutTwice(p.RampColorParameters, first, second, x, b.rampColor);
  }

  /**
   * The map a payload is read from fixes its shape and so its coarse value
   * type; the string map and both ramp maps all yield String.
   */
  lemma StoredValueType<Obj, Xform, Asset>(p: Preset<Obj, Xform, Asset>, s: Slot, name: string)
    requires Get(p, s, name).Some?
    ensures SlotOf(Get(p, s, name).value) == Some(s)
    ensures GetValueType(Get(p, s, name).value) ==
            match s
            case FloatSlot => Float
            case IntSlot => Int
            case _ => String
  {
  }

  /** The input binding `r` is bound to parameter `name`. */
  predicate BoundTo<Obj, Xform>(r: PresetInputValue<Obj, Xform>, name: string)
  {
    r.IsParameterInput && r.ParameterName == name
  }

  /** Number of recorded input bindings bound to parameter `name`. */
  function CountBoundTo<Obj, Xform>(inputs: seq<PresetInputValue<Obj, Xform>>, name: string): nat
  {
    if |inputs| == 0 then 0
    else (if BoundTo(inputs[0], name) then 1 else 0) + CountBoundTo(inputs[1..], name)
  }

  /**
   * IngestGenericInput: the record captured from the input (its nine export
   * options, type, index and objects), tagged with whether it is a parameter
   * input and with the parameter name, is appended after every record
   * already there; the maps and the metadata are unchanged.
   */
  function IngestGenericInput<Obj, Xform, Asset>(
    p: Preset<Obj, Xform, Asset>, isParameterInput: bool, parameterName: string,
    captured: PresetInputValue<Obj, Xform>): (q: Preset<Obj, Xform, Asset>)
    ensures |q.InputParameters| == |p.InputParameters| + 1
    ensures q.InputParameters[..|p.InputParameters|] == p.InputParameters
    ensures q.InputParameters[|p.InputParameters|] ==
            captured.(IsParameterInput := isParameterInput, ParameterName := parameterName)
    ensures forall s, n :: Get(q, s, n) == Get(p, s, n)
    ensures SameMetadata(p, q)
    ensures Valid(p) ==> Valid(q)
    ensures q.(InputParameters := p.InputParameters) == p
  {
    var record := captured.(IsParameterInput := isParameterInput, ParameterName := parameterName);
    p.(InputParameters := p.InputParameters + [record])
  }

  lemma {:induction false} CountBoundToAppend<Obj, Xform>(
    inputs: seq<PresetInputValue<Obj, Xform>>, r: PresetInputValue<Obj, Xform>, name: string)
    ensures CountBoundTo(inputs + [r], name) == CountBoundTo(inputs, name) + (if BoundTo(r, name) then 1 else 0)
  {
    if |inputs| == 0 {
      assert inputs + [r] == [r];
      assert [r][1..] == [];
    } else {
      assert (inputs + [r])[1..] == inputs[1..] + [r];
      CountBoundToAppend(inputs[1..], r, name);
    }
  }

  /**
   * Input capture never deduplicates: capturing another parameter input with
   * a name already recorded adds one more record bound to that name.
   */
  lemma InputCaptureKeepsDuplicates<Obj, Xform, Asset>(
    p: Preset<Obj, Xform, Asset>, name: string, captured: PresetInputValue<Obj, Xform>)
    ensures CountBoundTo(IngestGenericInput(p, true, name, captured).InputParameters, name)
            == CountBoundTo(p.InputParameters, name) + 1
  {
    var q := IngestGenericInput(p, true, name, captured);
    var record := captured.(IsParameterInput := true, ParameterName := name);
    assert q.InputParameters == p.InputParameters + [record];
    CountBoundToAppend(p.InputParameters, record, name);
  }
}

=== FILE: preset_values.dfy ===
/**
 * The stored value shapes of a Houdini Digital Asset preset
 * (HoudiniPreset.h): one constructor per FHoudiniPreset* struct that derives
 * from FHoudiniPresetBase, the ramp-point and input-object records, and the
 * two observers every payload answers: the coarse value type (GetValueType)
 * and a human-readable rendering (ToString).
 *
 * Host types are kept abstract: Obj stands for TSoftObjectPtr<UObject> and
 * Xform for FTransform; a float is its 32-bit pattern, and the text that
 * FString::SanitizeFloat gives for it is the parameter `sanitize`.
 */
module PresetValues {
  import opened Wrappers
  import opened FStrings

  /** The source's `int` / `int32`. */
  newtype Int32 = x: int | -0x8000_0000 <= x < 0x8000_0000

  /** A single-precision float, as its bit pattern; no float arithmetic is modelled. */
  type Float32 = bv32

  /** Ordinal of EHoudiniRampInterpolationType, an enum declared outside this file. */
  type RampInterpolation = nat

  /** Ordinal of EHoudiniInputType, an enum declared outside this file. */
  type InputType = nat

  /** FLinearColor: four float channels. */
  datatype LinearColor = LinearColor(R: Float32, G: Float32, B: Float32, A: Float32)

  /** EHoudiniPresetValueType. */
  datatype PresetValueType = Invalid | Float | Int | String

  datatype PresetFloatValues = PresetFloatValues(Values: seq<Float32>)

  datatype PresetIntValues = PresetIntValues(Values: seq<Int32>)

  datatype PresetStringValues = PresetStringValues(Values: seq<string>)

  datatype PresetRampFloatPoint =
    PresetRampFloatPoint(Position: Float32, Value: Float32, Interpolation: RampInterpolation)

  datatype PresetRampColorPoint =
    PresetRampColorPoint(Position: Float32, Value: LinearColor, Interpolation: RampInterpolation)

  datatype PresetRampFloatValues = PresetRampFloatValues(Points: seq<PresetRampFloatPoint>)

  datatype PresetRampColorValues = PresetRampColorValues(Points: seq<PresetRampColorPoint>)

  /** One object bound to an input, with its transform. */
  datatype PresetInputObject<Obj, Xform> = PresetInputObject(InputObject: Obj, Transform: Xform)

  /** An input binding: nine export options, the input's identity and its bound objects. */
  datatype PresetInputValue<Obj, Xform> = PresetInputValue(
    KeepWorldTransform: bool,
    PackGeometryBeforeMerging: bool,
    ExportInputAsReference: bool,
    ExportLODs: bool,
    ExportSockets: bool,
    ExportColliders: bool,
    ExportMaterialParameters: bool,
    MergeSplineMeshComponents: bool,
    PreferNaniteFallbackMesh: bool,
    InputType: InputType,
    IsParameterInput: bool,
    ParameterName: string,
    InputIndex: Int32,
    InputObjects: seq<PresetInputObject<Obj, Xform>>)

  /**
   * Every struct deriving from FHoudiniPresetBase, the base itself included.
   * FHoudiniPresetInputObject derives from the base too and overrides neither
   * observer.
   */
  datatype Payload<Obj, Xform> =
    | Base
    | FloatValues(floats: PresetFloatValues)
    | IntValues(ints: PresetIntValues)
    | StringValues(strings: PresetStringValues)
    | RampFloatValues(rampFloat: PresetRampFloatValues)
    | RampColorValues(rampColor: PresetRampColorValues)
    | InputObjectValue(inputObject: PresetInputObject<Obj, Xform>)
    | InputValue(input: PresetInputValue<Obj, Xform>)

  /**
   * GetValueType: a coarse and lossy kind. Float and Int each name one shape;
   * String is shared by strings, both ramps and input bindings, so only the
   * constructor tells those four apart.
   */
  function GetValueType<Obj, Xform>(p: Payload<Obj, Xform>): (k: PresetValueType)
    ensures k == Invalid <==> p.Base? || p.InputObjectValue?
    ensures k == Float <==> p.FloatValues?
    ensures k == Int <==> p.IntValues?
    ensures k == String <==> p.StringValues? || p.RampFloatValues? || p.RampColorValues? || p.InputValue?
  {
    match p
    case Base => Invalid
    case FloatValues(_) => Float
    case IntValues(_) => Int
    case StringValues(_) => String
    case RampFloatValues(_) => String
    case RampColorValues(_) => String
    case InputObjectValue(_) => Invalid
    case InputValue(_) => String
  }

  // ---------------------------------------------------------------------------
  // Converting an int to a single-precision float
  // ---------------------------------------------------------------------------

  /** Spacing of the single-precision floats around a magnitude `a` (24-bit significand). */
  function FloatSpacing(a: nat): (u: nat)
    ensures u >= 1
  {
    if a < 0x100_0000 then 1 else 2 * FloatSpacing(a / 2)
  }

  /**
   * The magnitude rounded to the nearest float, ties to the even significand:
   * one of the two multiples of the spacing that bracket `a`, so a float, and
   * at most half a spacing away from `a`.
   */
  function RoundMagnitude(a: nat): (r: nat)
    ensures var u := FloatSpacing(a); r == (a / u) * u || r == (a / u + 1) * u
    ensures 2 * (if r >= a then r - a else a - r) <= FloatSpacing(a)
  {
    var u := FloatSpacing(a);
    var q := a / u;
    var rem := a % u;
    var below := q * u;
    assert a == below + rem && 0 <= rem < u;
    assert below + u == (q + 1) * u;
    if 2 * rem < u || (2 * rem == u && q % 2 == 0) then below else below + u
  }

  /**
   * The integer value of the float nearest to `v`: what an int becomes when
   * bound to a `const float&`. It keeps the sign, its magnitude is one of the
   * two multiples of the float spacing that bracket |v|, and it lies at most
   * half a spacing from `v`.
   */
  function RoundToFloat32(v: int): (r: int)
    ensures v >= 0 ==> r >= 0
    ensures v <= 0 ==> r <= 0
    ensures var a := if v >= 0 then v else -v;
      var u := FloatSpacing(a);
      var m := if r >= 0 then r else -r;
      m == (a / u) * u || m == (a / u + 1) * u
    ensures 2 * (if r >= v then r - v else v - r) <= FloatSpacing(if v >= 0 then v else -v)
  {
    if v >= 0 then RoundMagnitude(v) else -(RoundMagnitude(-v) as int)
  }

  /** Integers of magnitude up to 2^24 are floats already. */
  lemma RoundToFloat32Exact(v: int)
    requires -0x100_0000 <= v <= 0x100_0000
    ensures RoundToFloat32(v) == v
  {
  }

  // ---------------------------------------------------------------------------
  // Renderings
  // ---------------------------------------------------------------------------

  /** The pieces FString::JoinBy joins for float values: SanitizeFloat of each. */
  function FloatPieces(vs: seq<Float32>, sanitize: Float32 -> string): seq<string>
  {
    seq(|vs|, k requires 0 <= k < |vs| => sanitize(vs[k]))
  }

  /** The pieces for int values as the source writes them: each passes through a float. */
  function IntPiecesThroughFloat(vs: seq<Int32>): seq<string>
  {
    seq(|vs|, k requires 0 <= k < |vs| => DecimalString(RoundToFloat32(vs[k] as int)))
  }

  /** The pieces for int values as intended: the decimal text of each value. */
  function IntPieces(vs: seq<Int32>): seq<string>
  {
    seq(|vs|, k requires 0 <= k < |vs| => DecimalString(vs[k] as int))
  }

  /**
   * ToString exactly as HoudiniPreset.h writes it. Ints are rendered through a
   * float, and the ramps hand a "%d" pattern to FString::Format, which
   * substitutes only "{0}"-style placeholders, so the point count never
   * appears.
   */
  function ToStringAsWritten<Obj, Xform>(p: Payload<Obj, Xform>, sanitize: Float32 -> string): string
  {
    match p
    case Base => ""
    case FloatValues(f) => Join(FloatPieces(f.Values, sanitize), ", ")
    case IntValues(i) => Join(IntPiecesThroughFloat(i.Values), ", ")
    case StringValues(s) => Join(s.Values, ", ")
    case RampFloatValues(_) => "%d float points."
    case RampColorValues(_) => "%d color points."
    case InputObjectValue(_) => ""
    case InputValue(_) => ""
  }

  /**
   * ToString as intended: ints rendered exactly and ramps rendered with their
   * point count; every other shape as written.
   */
  function ToString<Obj, Xform>(p: Payload<Obj, Xform>, sanitize: Float32 -> string): string
  {
    match p
    case IntValues(i) => Join(IntPieces(i.Values), ", ")
    case RampFloatValues(rf) => DecimalString(|rf.Points|) + " float points."
    case RampColorValues(rc) => DecimalString(|rc.Points|) + " color points."
    case _ => ToStringAsWritten(p, sanitize)
  }

  /**
   * Float values, string values, the base, an input object and an input
   * binding render the same as written and as intended; only ints and ramps
   * differ.
   */
  lemma IntendedDiffersOnlyForIntsAndRamps<Obj, Xform>(p: Payload<Obj, Xform>, sanitize: Float32 -> string)
    requires !(p.IntValues? || p.RampFloatValues? || p.RampColorValues?)
    ensures ToString(p, sanitize) == ToStringAsWritten(p, sanitize)
  {
  }

  // ---------------------------------------------------------------------------
  // What the renderings keep
  // ---------------------------------------------------------------------------

  /**
   * String values are joined by ", " in list order: no values give "", one
   * value gives itself, each further value follows the rendering of those
   * before it after ", ", and n values give their characters plus exactly
   * n - 1 separators. When no value holds a comma, splitting at ", " gives
   * the values back.
   */
  lemma StringRendering<Obj, Xform>(p: Payload<Obj, Xform>, sanitize: Float32 -> string)
    requires p.StringValues?
    ensures var vs, r := p.strings.Values, ToString(p, sanitize);
      && (|vs| == 0 ==> r == "")
      && (|vs| == 1 ==> r == vs[0])
      && (|vs| >= 2 ==> r == Join(vs[..|vs| - 1], ", ") + ", " + vs[|vs| - 1])
      && (|vs| >= 1 ==> |r| == TotalLength(vs) + 2 * (|vs| - 1))
      && (|vs| >= 1 ==> CountChar(',', r) == TotalCount(',', vs) + |vs| - 1)
      && (|vs| >= 1 && (forall k :: 0 <= k < |vs| ==> ',' !in vs[k]) ==> Split(r, ", ") == vs)
  {
    var vs := p.strings.Values;
    assert ToString(p, sanitize) == Join(vs, ", ");
    if |vs| >= 1 {
      JoinedStringsCount(vs);
      JoinedStringsSplit(vs);
    }
    if |vs| >= 2 {
      JoinSnoc(vs, ", ");
    }
  }

  lemma JoinedStringsCount(vs: seq<string>)
    requires |vs| >= 1
    ensures CountChar(',', Join(vs, ", ")) == TotalCount(',', vs) + |vs| - 1
  {
    SeparatorHasOneComma();
    JoinCount(',', vs, ", ");
    assert CountChar(',', ", ") * (|vs| - 1) == |vs| - 1;
  }

  lemma JoinedStringsSplit(vs: seq<string>)
    requires |vs| >= 1
    ensures (forall k :: 0 <= k < |vs| ==> ',' !in vs[k]) ==> Split(Join(vs, ", "), ", ") == vs
  {
    if forall k :: 0 <= k < |vs| ==> ',' !in vs[k] {
      assert forall k :: 0 <= k < |vs| ==> ", "[0] !in vs[k];
      SplitJoin(vs, ", ");
    }
  }

  /**
   * The string rendering cannot be read back: a value holding ", " renders
   * like two values.
   */
  lemma StringRenderingIsAmbiguous<Obj, Xform>(sanitize: Float32 -> string)
    ensures var one: Payload<Obj, Xform> := StringValues(PresetStringValues(["a, b"]));
      var two: Payload<Obj, Xform> := StringValues(PresetStringValues(["a", "b"]));
      ToString(one, sanitize) == ToString(two, sanitize) && one.strings != two.strings
  {
  }

  /**
   * Float values render as one SanitizeFloat text per value, in order, joined
   * by ", "; when those texts hold no comma, splitting at ", " recovers them.
   */
  lemma FloatRendering<Obj, Xform>(p: Payload<Obj, Xform>, sanitize: Float32 -> string)
    requires p.FloatValues?
    requires forall k :: 0 <= k < |p.floats.Values| ==> ',' !in sanitize(p.floats.Values[k])
    ensures var vs, r := p.floats.Values, ToString(p, sanitize);
      && (|vs| == 0 ==> r == "")
      && (|vs| >= 1 ==> Split(r, ", ") == FloatPieces(vs, sanitize))
  {
    var vs := p.floats.Values;
    var pieces := FloatPieces(vs, sanitize);
    if |vs| >= 1 {
      assert forall k :: 0 <= k < |pieces| ==> ", "[0] !in pieces[k] by {
        forall k | 0 <= k < |pieces| ensures ", "[0] !in pieces[k] {
          assert pieces[k] == sanitize(vs[k]);
          assert ',' !in sanitize(vs[k]);
          assert ", "[0] == ',';
        }
      }
      SplitJoin(pieces, ", ");
    }
  }

  /**
   * Int values render as one decimal text per value, in list order, joined by
   * ", ": the rendering is empty exactly when there are no values, and n >= 1
   * values give n pieces and n - 1 separators.
   */
  lemma IntRendering<Obj, Xform>(p: Payload<Obj, Xform>, sanitize: Float32 -> string)
    requires p.IntValues?
    ensures var vs, r := p.ints.Values, ToString(p, sanitize);
      && (r == "" <==> |vs| == 0)
      && (|vs| >= 1 ==> Split(r, ", ") == IntPieces(vs))
      && (|vs| >= 1 ==> CountChar(',', r) == |vs| - 1)
  {
    assert ToString(p, sanitize) == Join(IntPieces(p.ints.Values), ", ");
    JoinedInts(p.ints.Values);
  }

  lemma JoinedInts(vs: seq<Int32>)
    ensures var r := Join(IntPieces(vs), ", ");
      && (r == "" <==> |vs| == 0)
      && (|vs| >= 1 ==> Split(r, ", ") == IntPieces(vs))
      && (|vs| >= 1 ==> CountChar(',', r) == |vs| - 1)
  {
    if |vs| >= 1 {
      IntPiecesHaveNoComma(vs);
      JoinedIntsNonEmpty(vs);
      SplitJoin(IntPieces(vs), ", ");
      JoinedIntsCount(vs);
    }
  }

  lemma JoinedIntsNonEmpty(vs: seq<Int32>)
    requires |vs| >= 1
    ensures Join(IntPieces(vs), ", ") != ""
  {
  }

  lemma JoinedIntsCount(vs: seq<Int32>)
    requires |vs| >= 1
    ensures CountChar(',', Join(IntPieces(vs), ", ")) == |vs| - 1
  {
    var pieces := IntPieces(vs);
    IntPiecesHaveNoComma(vs);
    JoinCount(',', pieces, ", ");
    TotalCountAbsent(',', pieces);
    SeparatorHasOneComma();
  }

  lemma SeparatorHasOneComma()
    ensures CountChar(',', ", ") == 1
  {
  }

  lemma IntPiecesHaveNoComma(vs: seq<Int32>)
    ensures forall k :: 0 <= k < |IntPieces(vs)| ==> ',' !in IntPieces(vs)[k] && |IntPieces(vs)[k]| >= 1
    ensures forall k :: 0 <= k < |IntPieces(vs)| ==> ", "[0] !in IntPieces(vs)[k]
  {
  }

  /**
   * As written, int values render as one decimal text per value after its
   * trip through a float, in list order, joined by ", ".
   */
  lemma IntRenderingAsWritten<Obj, Xform>(p: Payload<Obj, Xform>, sanitize: Float32 -> string)
    requires p.IntValues?
    ensures var vs, r := p.ints.Values, ToStringAsWritten(p, sanitize);
      && (r == "" <==> |vs| == 0)
      && (|vs| >= 1 ==> Split(r, ", ") == IntPiecesThroughFloat(vs))
  {
    var vs := p.ints.Values;
    var pieces := IntPiecesThroughFloat(vs);
    if |vs| >= 1 {
      assert forall k :: 0 <= k < |pieces| ==> ", "[0] !in pieces[k] && |pieces[k]| >= 1;
      assert |pieces[0]| >= 1;
      SplitJoin(pieces, ", ");
    }
  }

  /** The intended int rendering is injective: equal texts come from equal value lists. */
  lemma IntRenderingInjective<Obj, Xform>(p: Payload<Obj, Xform>, q: Payload<Obj, Xform>, sanitize: Float32 -> string)
    requires p.IntValues? && q.IntValues?
    requires ToString(p, sanitize) == ToString(q, sanitize)
    ensures p.ints == q.ints
  {
    var a, b := p.ints.Values, q.ints.Values;
    IntRendering(p, sanitize);
    IntRendering(q, sanitize);
    if |a| >= 1 {
      assert IntPieces(a) == IntPieces(b);
      forall k | 0 <= k < |a|
        ensures a[k] == b[k]
      {
        assert IntPieces(a)[k] == IntPieces(b)[k];
        DecimalInjective(a[k] as int, b[k] as int);
      }
    }
  }

  /** Within +-2^24 the float detour changes nothing: the written and the intended int renderings agree. */
  lemma IntRenderingThroughFloatExact<Obj, Xform>(p: Payload<Obj, Xform>, sanitize: Float32 -> string)
    requires p.IntValues?
    requires forall k :: 0 <= k < |p.ints.Values| ==> -0x100_0000 <= p.ints.Values[k] <= 0x100_0000
    ensures ToStringAsWritten(p, sanitize) == ToString(p, sanitize)
  {
    var vs := p.ints.Values;
    forall k | 0 <= k < |vs|
      ensures IntPiecesThroughFloat(vs)[k] == IntPieces(vs)[k]
    {
      RoundToFloat32Exact(vs[k] as int);
    }
    assert IntPiecesThroughFloat(vs) == IntPieces(vs);
  }

  /**
   * As written, 16777216 and 16777217 render alike: the second rounds to the
   * first on its way through a float. The intended rendering tells them apart.
   */
  lemma IntRenderingThroughFloatCollides<Obj, Xform>(sanitize: Float32 -> string)
    ensures var lo: Payload<Obj, Xform> := IntValues(PresetIntValues([16777216]));
      var hi: Payload<Obj, Xform> := IntValues(PresetIntValues([16777217]));
      && ToStringAsWritten(lo, sanitize) == ToStringAsWritten(hi, sanitize)
      && ToString(lo, sanitize) != ToString(hi, sanitize)
  {
    assert FloatSpacing(16777217) == 2 * FloatSpacing(8388608) == 2;
    assert RoundToFloat32(16777217) == 16777216;
    RoundToFloat32Exact(16777216);
    assert IntPiecesThroughFloat([16777217]) == IntPiecesThroughFloat([16777216]);
    var lo: Payload<Obj, Xform> := IntValues(PresetIntValues([16777216]));
    var hi: Payload<Obj, Xform> := IntValues(PresetIntValues([16777217]));
    if ToString(lo, sanitize) == ToString(hi, sanitize) {
      IntRenderingInjective(lo, hi, sanitize);
    }
  }

  /** Number of points of a ramp payload. */
  function PointCount<Obj, Xform>(p: Payload<Obj, Xform>): nat
    requires p.RampFloatValues? || p.RampColorValues?
  {
    if p.RampFloatValues? then |p.rampFloat.Points| else |p.rampColor.Points|
  }

  /** The fixed text after the count in a ramp rendering. */
  function RampSuffix<Obj, Xform>(p: Payload<Obj, Xform>): string
    requires p.RampFloatValues? || p.RampColorValues?
  {
    if p.RampFloatValues? then " float points." else " color points."
  }

  /**
   * A ramp renders as its point count followed by " float points." or
   * " color points.", and the count reads back from the text.
   */
  lemma RampRendering<Obj, Xform>(p: Payload<Obj, Xform>, sanitize: Float32 -> string)
    requires p.RampFloatValues? || p.RampColorValues?
    ensures var r, suffix := ToString(p, sanitize), RampSuffix(p);
      && |r| > |suffix|
      && r[|r| - |suffix|..] == suffix
      && ParseDecimal(r[..|r| - |suffix|]) == Some(PointCount(p))
  {
    var d := DecimalString(PointCount(p));
    var r := ToString(p, sanitize);
    assert r == d + RampSuffix(p);
    assert r[..|d|] == d;
    DecimalRoundTrip(PointCount(p));
  }

  /**
   * Positions, values and interpolations never show: two ramps of the same
   * kind render alike exactly when they have the same number of points.
   */
  lemma RampRenderingDependsOnlyOnCount<Obj, Xform>(p: Payload<Obj, Xform>, q: Payload<Obj, Xform>, sanitize: Float32 -> string)
    requires (p.RampFloatValues? && q.RampFloatValues?) || (p.RampColorValues? && q.RampColorValues?)
    ensures ToString(p, sanitize) == ToString(q, sanitize) <==> PointCount(p) == PointCount(q)
  {
    RampRendering(p, sanitize);
    RampRendering(q, sanitize);
  }

  /**
   * As written, a ramp renders as the literal pattern whatever its points, so
   * it never matches the intended rendering, which begins with a digit.
   */
  lemma RampRenderingAsWrittenIgnoresCount<Obj, Xform>(p: Payload<Obj, Xform>, sanitize: Float32 -> string)
    requires p.RampFloatValues? || p.RampColorValues?
    ensures ToStringAsWritten(p, sanitize) == "%d" + RampSuffix(p)
    ensures ToStringAsWritten(p, sanitize) != ToString(p, sanitize)
  {
    var w := ToStringAsWritten(p, sanitize);
    var d := DecimalString(PointCount(p));
    var r := ToString(p, sanitize);
    assert w == "%d" + RampSuffix(p);
    assert r == d + RampSuffix(p);
    assert NoLeadingZero(d);
    assert r[0] == d[0] && '0' <= d[0] <= '9';
    assert w[0] != r[0];
  }

  /** The base, an input object and an input binding render as "" whatever their fields hold. */
  lemma EmptyRenderings<Obj, Xform>(p: Payload<Obj, Xform>, sanitize: Float32 -> string)
    requires p.Base? || p.InputObjectValue? || p.InputValue?
    ensures ToString(p, sanitize) == "" && ToStringAsWritten(p, sanitize) == ""
  {
  }
}

=== FILE: wrappers.dfy ===
/** Optional values, used where the source has a nullable pointer or a lookup that can miss. */
module Wrappers {

  datatype Option<+T> = None | Some(value: T)
}
